=== FILE: README.md ===
# retainer: a time-expiring key→value cache, modelled in Dafny

This project models the core of `retainer`, an in-process cache. Each key maps
to an entry. An entry holds a value and an optional absolute deadline (a
`CacheExpiration`). Expired entries are hidden lazily: readers see them as
absent while they are still resident. A sweep (`purge`) also deletes them
actively. It samples random positions of the key-ordered store, deletes the
expired entries it lands on, and repeats while enough of the sample was
expired.

Modules, leaves first:

- `Wrappers` (wrappers.dfy): `Option`.
- `Time` (time.dfy): `Instant` and `Duration` as bounded nanosecond counts.
  An `Instant` runs from 0 to the last instant of a Unix `timespec`: an `i64`
  count of seconds plus 999 999 999 ns. `Outcome` carries either a value or
  the panic a conversion raises.
- `Entry` (entry.dfy): `CacheExpiration` and `CacheEntry`, the expiry test,
  `remaining`, and the four `From` conversions.
- `Store` (store.dfy): the `BTreeMap`. It is a sequence of key/entry pairs in
  strictly increasing key order. `ModelOf` is the map that sequence stands
  for.
- `Caching` (cache.rs's `Cache`): `get`, `insert`, `remove`, `update`,
  `set_expiration`, `clear`, `len`, `is_empty`, `expired` and `unexpired`.
  All of them are pure functions over the store at an explicit `now`.
- `Sweeper` (purge.dfy): the skip-walk of one purge round (`Walk`), the
  deletion of the collected keys, one round (`PurgeRound`) and the round loop
  (`Purge`). The walk and the loops are imperative and proved with loop
  invariants.
- `Scenarios` (scenarios.dfy): the repository's tests and usage scenarios,
  stated as lemmas.

Behaviour that the model follows from the code:

- An entry is expired only when its deadline is strictly before `now`. A
  deadline equal to `now` is live (src/entry.rs:32).
- The walk's `prev` starts at 0 (src/cache.rs:196). So when position 0 is not
  drawn, every position the walk inspects is one below the drawn position.
  Drawing {2, 4} inspects {1, 3}, and the last entry in key order can only be
  inspected if position 0 was also drawn. The model keeps this arithmetic
  exactly (`Sweeper.Visited`, `Sweeper.VisitedExamples`). It proves that the
  walk is still safe: the iterator is never exhausted, and only expired
  entries are deleted.
- `insert_untracked` is not defined in src/cache.rs, so it is not modelled.
- `purge` takes no removal callback, so none is modelled.

## Model

| member | source | states |
|---|---|---|
| `Time.CheckedAdd` | src/entry.rs:132 | `Instant::checked_add` yields an instant exactly when the sum is representable, and then it lies exactly `d` after `t` |
| `Time.SaturatingSince` | src/entry.rs:111 | `saturating_duration_since` is zero exactly when `t` is not after `earlier`, and otherwise the gap that takes `earlier` to `t` |
| `Time.FromMillis` | src/entry.rs:125 | `Duration::from_millis(m)` is a whole number of milliseconds, exactly `m` of them |
| `Entry.IsExpired` | src/entry.rs:30-37 | an expiration has expired exactly when it has a deadline and a positive time has elapsed since it, so a deadline equal to `now` is still live |
| `Entry.ExpiryIsMonotone` | src/entry.rs:30-37 | once a deadline has passed it stays passed as `now` grows, so the frozen-clock sweep never deletes an entry that a later real clock reading would call live |
| `Entry.New` | src/entry.rs:88-96 | the given instant becomes the deadline verbatim; the expiration is expired exactly at instants strictly after it |
| `Entry.Never` | src/entry.rs:98-101 | an expiration without a deadline is never expired, whatever `now` is |
| `Entry.FromInstant` | src/entry.rs:115-120 | `From<Instant>` keeps the instant as the deadline; expired exactly strictly after it |
| `Entry.Remaining` | src/entry.rs:108-112 | `None` exactly without a deadline; otherwise zero exactly when the deadline is not after `now`, and the gap to the deadline when positive |
| `Entry.RemainingAgreesWithExpiry` | src/entry.rs:108-112 | an expired entry reports zero remaining; a live one with `d` remaining stays live through `now + d` and is expired at every later instant |
| `Entry.FromDuration` | src/entry.rs:129-134 | succeeds exactly when `now + d` is representable, else panics with an overflow instead of wrapping; the deadline is `now + d`, live at `now`, with `d` remaining |
| `Entry.FromU64` | src/entry.rs:122-127 | `m` milliseconds behave as a duration of `m * 1_000_000` ns: same success condition, a deadline exactly that far after `now`, that much remaining, live at `now` |
| `Entry.FromRange` | src/entry.rs:136-141 | an empty range panics; otherwise the deadline is exactly the drawn `millis` milliseconds after `now`, with that much remaining, which lies in `[lo, hi)` milliseconds; overflow panics as for durations |
| `Entry.MapValue` | src/cache.rs:312 | a plain definition with no contract: `f` applied to the value through `value_mut`, the expiration kept; what that means for liveness is stated by `Entry.MapValueKeepsLiveness`, and for the cache by `Caching.Update` |
| `Entry.SetExpiration` | src/cache.rs:323 | a plain definition with no contract: the value kept, the expiration replaced; its effect on the cache is stated by `Caching.SetExpiration` |
| `Entry.MapValueKeepsLiveness` | src/entry.rs:44-64 | writing through `value_mut`/`DerefMut` never changes whether the entry is expired, nor its remaining time |
| `Store.ModelOfKeys` | src/cache.rs:42 | the ordered store has exactly the keys of its pairs, and one map entry per pair when keys are strictly increasing |
| `Store.ModelOfAt` | src/cache.rs:199-215 | in a sorted store, the pair at any iterator position is what the map holds for that key |
| `Store.Lookup` | src/cache.rs:91 | `BTreeMap::get` finds an entry exactly for resident keys, and it is the mapped one |
| `Store.Put` | src/cache.rs:122 | after `BTreeMap::insert`, the map is the old map with `k` bound to the new entry |
| `Store.PutKeepsSorted` | src/cache.rs:122 | insertion keeps the keys strictly increasing |
| `Store.Delete` | src/cache.rs:237 | after `BTreeMap::remove`, the map is the old map without `k` |
| `Store.DeleteKeepsSorted` | src/cache.rs:285 | removal keeps keys strictly increasing and shortens the store by one exactly when `k` was resident |
| `Caching.Unpack` | src/cache.rs:26-34 | the macro yields the entry exactly when it is not expired |
| `Caching.UnpackValue` | src/cache.rs:123-124 | a plain definition with no contract: `.and_then(unpack!).map(into_inner)` on the entry the store gave back; that the value comes back exactly when that entry was live is stated by `Caching.Insert` and `Caching.Remove` |
| `Caching.Empty` | src/cache.rs:51-56 | a new cache is empty, well formed and holds no key |
| `Caching.Len` | src/cache.rs:100-107 | `len` is the number of resident keys, expired ones included |
| `Caching.IsEmpty` | src/cache.rs:127-130 | `is_empty` holds exactly when no key is resident, expired or not |
| `Caching.Get` | src/cache.rs:85-98 | yields an entry exactly when the key is resident and unexpired, and then it is the stored entry; the store is not changed |
| `Caching.Insert` | src/cache.rs:114-125 | leaves exactly `{v, e}` at `k` and every other key as it was, keeps the store ordered, and returns the old value exactly when an old entry existed and was unexpired |
| `Caching.Remove` | src/cache.rs:277-288 | removes `k` whether or not it expired and nothing else; `len` drops by one exactly when `k` was resident; the value comes back only if the entry was unexpired |
| `Caching.Update` | src/cache.rs:304-314 | on a live key changes only that key's value, to `f` of the old value, keeping its expiration; on an absent or expired key the cache is unchanged |
| `Caching.SetExpiration` | src/cache.rs:317-325 | on an absent or expired key the cache is unchanged and the conversion is never applied, so it cannot panic; on a live key the conversion's panic propagates, and otherwise only that key's expiration changes, to the converted value, keeping its value |
| `Caching.Clear` | src/cache.rs:65-67 | afterwards no key is resident, `len` is 0 and `is_empty` holds |
| `Caching.ExpiredPlusUnexpired` | src/cache.rs:69-301 | at one instant `expired() + unexpired() == len()` |
| `Caching.Expired` | src/cache.rs:73-80 | `expired()` is at most `len()` and equals the number of resident keys whose entries have expired |
| `Caching.Unexpired` | src/cache.rs:294-301 | `unexpired()` is at most `len()` and equals the number of resident keys whose entries are live |
| `Caching.UnexpiredCountsLiveKeys` | src/cache.rs:85-98 | the live keys `unexpired()` counts are exactly the keys for which `get` yields an entry |
| `Caching.InsertThenGet` | src/cache.rs:85-125 | right after inserting with a deadline not yet passed, `get` yields the new entry |
| `Caching.RemoveThenGet` | src/cache.rs:277-288 | after `remove(k)`, `get(k)` is empty at any instant |
| `Caching.InsertTwice` | src/cache.rs:114-125 | a second insert for a key returns the first value exactly when the first entry had not expired by the second call |
| `Caching.ExpiredStaysResident` | src/cache.rs:26-107 | an expired but resident entry is hidden from `get` yet counted by `len` and by `expired` |
| `Sweeper.Min` | src/cache.rs:177 | the clamped sample is the smaller of the requested sample and the store size |
| `Sweeper.Offset` | src/cache.rs:204-208 | the `checked_sub` chain skips exactly the items strictly between the previous and the next drawn index, and nothing when the next index is not beyond the previous one |
| `Sweeper.VisitedIsSafe` | src/cache.rs:194-215 | for a draw of `n` distinct ascending positions below `total`, the walk inspects `n` distinct ascending positions below `total`, each at most one below its drawn position, exactly the drawn ones when 0 is drawn and each one lower otherwise |
| `Sweeper.VisitedExamples` | src/cache.rs:196-212 | drawing {2, 4} inspects {1, 3}; drawing {0, 2, 4} inspects {0, 2, 4} |
| `Sweeper.SweptKeysSound` | src/cache.rs:217-227 | the walk collects at most one key per position, in ascending order, only keys whose entries have expired, and every expired entry it lands on; when every entry has expired it collects one key per position |
| `Sweeper.Next` | src/cache.rs:215 | a plain definition with no contract: the pair at the iterator position, or nothing past the end; that the walk's `unwrap` never meets nothing is stated by `Sweeper.Walk` |
| `Sweeper.Walk` | src/cache.rs:194-228 | the skip-and-next walk never hits an exhausted iterator, and it collects exactly the keys of the expired entries at the inspected positions, with `gone` their number |
| `Sweeper.DeleteAll` | src/cache.rs:230-242 | deleting the collected keys removes exactly those keys, and shrinks the store by their number when they are distinct and resident |
| `Sweeper.PurgeRound` | src/cache.rs:166-238 | one round over `min(sample, total)` drawn positions deletes at most that many entries, only expired ones, exactly the expired ones the walk lands on; survivors are untouched, the store never grows, and when everything has expired it deletes one entry per drawn position |
| `Sweeper.ContinuesAsWritten` | src/cache.rs:259 | a plain definition with no contract: the negation of the break test `gone < sample * threshold`; compared with the corrected condition by `Sweeper.KeepSweepingMatchesSource` and shown to stall by `Sweeper.AsWrittenLoopStalls` |
| `Sweeper.KeepSweepingMatchesSource` | src/cache.rs:258-261 | with `sample >= 1` and `threshold > 0` the model's loop condition equals the source's, so every continuing round removed at least one entry |
| `Sweeper.NothingSweptWhenAllLive` | src/cache.rs:217-220 | a walk over a store with no expired entry collects nothing |
| `Sweeper.AsWrittenLoopStalls` | src/cache.rs:166-262 | as written, a round on a non-empty store with a zero sample, or with a threshold of zero or below and nothing expired, deletes nothing and still asks for another round |
| `Sweeper.Purge` | src/cache.rs:160-274 | the loop ends, only expired entries are deleted, survivors are unchanged, and `len` drops by the number removed. The returned `trace` records the store before each round and after the last. Every round `i` started from a non-empty store, sampled `min(sample, len)` positions given by `draw(i, …)`, and left exactly that store minus the expired entries its walk landed on. Every round went on to the next because its `gone` met the continue test. The loop stops on an empty store, or after a last round (from `last`) whose `gone` was below `sampled * threshold` or zero. A store where everything has expired is drained when `sample >= 1` and `threshold <= 1` |
| `Sweeper.TracedRound` | src/cache.rs:166-262 | one round of the loop, run on the draw for its round number, extends the trace by the store it leaves; that store keeps a subset of the original entries unchanged and drops only expired ones. When every entry has expired, `sample >= 1` and `threshold <= 1`, the round asks for another |
| `Sweeper.RoundRecorded` | src/cache.rs:253-261 | appending a round's result to the trace keeps every earlier round recorded as drawn and continued, records the new round as drawn with its `gone`, and records it as continued exactly when it passed the continue test |
| `Sweeper.FullHitContinues` | src/cache.rs:258-260 | a round that deleted an entry at every one of its `sampled >= 1` positions passes the continue test whenever `threshold <= 1` |
| `Scenarios.SizeOperations` | tests/basic.rs:4-20 | three never-expiring inserts give `len` 3, `expired` 0, `unexpired` 3; after `clear`, all three are 0 |
| `Scenarios.SetExpirationOperations` | src/cache.rs:317-325 | `get` after `set_expiration` on a live key sees the new expiration; on an absent key even a conversion that would panic leaves the cache as it was |
| `Scenarios.UpdateOperations` | tests/basic.rs:23-37 | `get` after `update` sees the updated value |
| `Scenarios.DeadlineHidesEntry` | src/cache.rs:85-98 | a 50 ms deadline is hidden 60 ms later, while a key without a deadline stays visible |
| `Scenarios.InsertOverwrites` | src/cache.rs:114-125 | the first insert of a key returns nothing; overwriting it returns the old value, and the new value is read back |

## Left out

- Async locking (`RwLock`, `upgradable_read`, `upgrade`, `.await`): every
  operation, and every purge round, is one atomic step over the store.
- `monitor` (src/cache.rs:138-144): an endless timer loop that calls `purge`.
  This is scheduling, not cache logic.
- Randomness: the rejection-sampling loop (src/cache.rs:188-191) becomes the
  `draw(round, n, total)` parameter of `Sweeper.Purge`. It must return `n`
  distinct ascending positions below `total`. The `gen_range` draw of
  `From<Range<u64>>` becomes the `millis` parameter of `Entry.FromRange`.
- Clock: each `Instant::now()` is an explicit `now` parameter. Every
  operation runs at one instant. Real `is_expired` calls each read the clock
  afresh.
- Sweeper.Purge: runs the whole call at one instant `now`, where the source
  reads the clock at each expiry test. `Entry.ExpiryIsMonotone` shows that
  an entry expired at that instant stays expired at any later reading.
- Sweeper.Purge: also stops after a round that removed nothing, where the
  source's test alone would go round again. The two tests differ only when
  `sample` is 0 or `threshold` is not positive, the inputs under "## Findings"
  on which the source keeps sweeping until the store is empty, and with
  `sample = 0` never returns.
- Entry.FromRange: does not model the uniform distribution of the draw. It
  only states that the draw lies in `[lo, hi)`.
- The `f64` threshold is a `real`. Rounding and NaN are not modelled.
- Logging, the label (`with_label`) and the `locked`/`start` timing
  bookkeeping are left out. The total `removed` count is returned instead of
  being logged.
- `CacheEntryReadGuard` (src/entry.rs:143-165) wraps a raw `*const CacheEntry`.
  Its lifetime and aliasing are outside the model. `Caching.Get` returns the
  entry the guard dereferences to.
- The accessors `expiration()`, `instant()`, `value()` and `Deref` are field
  selections on the datatypes. `CacheEntry::new` is the datatype
  constructor, and `into_inner` is `.value`.
- Keys are integers. Any totally ordered key type over a finite store embeds
  into them without changing the order. Values are generic.
- `insert` converts its `Into<CacheExpiration>` argument unconditionally,
  before it touches the store (src/cache.rs:118), so `Caching.Insert` takes
  the converted `CacheExpiration`; the conversions are modelled in `Entry`.
  `set_expiration` converts only on a live key, under the lock
  (src/cache.rs:321-323), so `Caching.SetExpiration` takes the conversion
  itself as a function of the instant and applies it only in that branch.
- src/expiration.rs is not compiled into the crate (src/lib.rs declares
  only `cache` and `entry`). It is not part of this model.
- tests/runtimes.rs and examples/basic.rs depend on wall-clock timing, so
  they are not modelled.

## Findings

| source | as written | input that shows it | evidently intended | confidence | as-written member | corrected member |
|---|---|---|---|---|---|---|
| src/cache.rs:258-261 | the loop goes round again unless `gone < sample * threshold` | a non-empty store with `sample = 0`; or `threshold <= 0.0` and a resident entry that never expires. Once a round deletes nothing, `gone` is 0, `gone < sample * threshold` is false, the store is unchanged, and `purge` never returns | a round that removed nothing ends the loop, as the documented rule "more than `threshold` expired → sample again" implies | medium, not executed | `Sweeper.AsWrittenLoopStalls` | `Sweeper.Purge` (loop condition `KeepSweeping`, terminating by `decreases Len(r)`; equal to the source's condition whenever `sample >= 1` and `threshold > 0`, by `Sweeper.KeepSweepingMatchesSource`) |

=== FILE: cache.dfy ===
/**
 The cache façade (`Cache<K, V>`): an ordered store of entries and the
 operations callers use on it. Each operation is one atomic step over the
 store at a fixed `now`; the reader/writer lock around the store is not
 modelled. An expired entry that is still resident is hidden by `Unpack`
 (the `unpack!` macro) but still counted by `Len`.
 */
module Caching {
  import opened Wrappers
  import opened Time
  import opened Entry
  import opened Store

  /** The store: pairs of key and entry in strictly increasing key order. */
  datatype Cache<V> = Cache(store: seq<(Key, CacheEntry<V>)>)

  ghost predicate Valid<V>(c: Cache<V>) {
    Sorted(c.store)
  }

  /** The key→entry map the cache stands for. */
  ghost function Model<V>(c: Cache<V>): map<Key, CacheEntry<V>> {
    ModelOf(c.store)
  }

  /** A key is visible when it is resident and its entry has not expired. */
  ghost predicate Live<V>(c: Cache<V>, k: Key, now: Instant) {
    k in Model(c) && !IsExpired(Model(c)[k].expiration, now)
  }

  /** The `unpack!` macro: an expired entry looks absent. */
  function Unpack<V>(e: CacheEntry<V>, now: Instant): (r: Option<CacheEntry<V>>)
    ensures r.Some? <==> !IsExpired(e.expiration, now)
    ensures r.Some? ==> r.value == e
  {
    if IsExpired(e.expiration, now) then None else Some(e)
  }

  /** The value of a looked-up entry, or nothing when it is absent or expired. */
  function UnpackValue<V>(found: Option<CacheEntry<V>>, now: Instant): Option<V> {
    match found
    case None => None
    case Some(e) =>
      match Unpack(e, now)
      case None => None
      case Some(live) => Some(live.value)
  }

  /** `Cache::new` and `Default::default`: an empty cache. */
  function Empty<V>(): (c: Cache<V>)
    ensures IsEmpty(c)
    ensures Valid(c) && Model(c) == map[]
  {
    Cache([])
  }

  /** `Cache::len`: every resident entry, expired or not, one per resident key. */
  function Len<V>(c: Cache<V>): (n: nat)
    ensures Valid(c) ==> n == |Model(c)|
  {
    ModelOfKeys(c.store);
    |c.store|
  }

  /** `Cache::is_empty`: no key is resident, expired or not. */
  predicate IsEmpty<V>(c: Cache<V>)
    ensures IsEmpty(c) <==> Model(c) == map[]
  {
    assert |c.store| > 0 ==> c.store[0].0 in Model(c);
    |c.store| == 0
  }

  /** `Cache::get`: the entry, unless the key is absent or its entry has expired;
      the cache itself is not changed. */
  function Get<V>(c: Cache<V>, k: Key, now: Instant): (r: Option<CacheEntry<V>>)
    ensures r.Some? <==> Live(c, k, now)
    ensures r.Some? ==> r.value == Model(c)[k]
  {
    match Lookup(c.store, k)
    case None => None
    case Some(found) => Unpack(found, now)
  }

  /** `Cache::insert`: `k` now holds exactly `CacheEntry(v, x)` and no other key
      changes; the previous value comes back only if the previous entry was live. */
  function Insert<V>(c: Cache<V>, k: Key, v: V, x: CacheExpiration, now: Instant)
    : (r: (Cache<V>, Option<V>))
    ensures Valid(c) ==> Valid(r.0)
    ensures Model(r.0) == Model(c)[k := CacheEntry(v, x)]
    ensures r.1.Some? <==> Live(c, k, now)
    ensures r.1.Some? ==> r.1.value == Model(c)[k].value
  {
    PutKeepsSorted(c.store, k, CacheEntry(v, x));
    var previous := Lookup(c.store, k);
    (Cache(Put(c.store, k, CacheEntry(v, x))), UnpackValue(previous, now))
  }

  /** `Cache::remove`: `k` is gone whether or not it had expired, and only `k`;
      its value comes back only if the entry was live. */
  function Remove<V>(c: Cache<V>, k: Key, now: Instant): (r: (Cache<V>, Option<V>))
    ensures Valid(c) ==> Valid(r.0)
    ensures Model(r.0) == Model(c) - {k}
    ensures Valid(c) ==> Len(r.0) == if k in Model(c) then Len(c) - 1 else Len(c)
    ensures r.1.Some? <==> Live(c, k, now)
    ensures r.1.Some? ==> r.1.value == Model(c)[k].value
  {
    DeleteKeepsSorted(c.store, k);
    var removed := Lookup(c.store, k);
    (Cache(Delete(c.store, k)), UnpackValue(removed, now))
  }

  /** `Cache::update`: on a live key, applies `f` to the value and keeps the
      expiration; on an absent or expired key, changes nothing. */
  function Update<V>(c: Cache<V>, k: Key, f: V -> V, now: Instant): (r: Cache<V>)
    ensures Valid(c) ==> Valid(r)
    ensures Live(c, k, now) ==>
      Model(r) == Model(c)[k := CacheEntry(f(Model(c)[k].value), Model(c)[k].expiration)]
    ensures !Live(c, k, now) ==> r == c
  {
    match Lookup(c.store, k)
    case None => c
    case Some(found) =>
      match Unpack(found, now)
      case None => c
      case Some(live) =>
        PutKeepsSorted(c.store, k, MapValue(live, f));
        Cache(Put(c.store, k, MapValue(live, f)))
  }

  /** `Cache::set_expiration`: on a live key, converts the argument into an
      expiration (which reads the clock and may panic) and replaces the entry's
      expiration, keeping its value; on an absent or expired key, changes nothing
      and never converts. The argument is the conversion `conv`, applied to `now`. */
  function SetExpiration<V>(c: Cache<V>, k: Key, conv: Instant -> Outcome<CacheExpiration>,
                            now: Instant): (r: Outcome<Cache<V>>)
    ensures !Live(c, k, now) ==> r == Ok(c)
    ensures Live(c, k, now) && conv(now).Fail? ==> r == Fail(conv(now).panic)
    ensures Live(c, k, now) && conv(now).Ok? ==>
      r.Ok? && Model(r.value) == Model(c)[k := CacheEntry(Model(c)[k].value, conv(now).value)]
    ensures Valid(c) && r.Ok? ==> Valid(r.value)
  {
    match Lookup(c.store, k)
    case None => Ok(c)
    case Some(found) =>
      match Unpack(found, now)
      case None => Ok(c)
      case Some(live) =>
        match conv(now)
        case Fail(p) => Fail(p)
        case Ok(x) =>
          PutKeepsSorted(c.store, k, Entry.SetExpiration(live, x));
          Ok(Cache(Put(c.store, k, Entry.SetExpiration(live, x))))
  }

  /** `Cache::clear`: drops every entry, expired or not. */
  function Clear<V>(c: Cache<V>): (r: Cache<V>)
    ensures Valid(r) && Model(r) == map[]
    ensures Len(r) == 0 && IsEmpty(r)
  {
    Cache([])
  }

  /** How many pairs of the sequence hold an expired entry. */
  function CountExpired<V>(es: seq<(Key, CacheEntry<V>)>, now: Instant): (n: nat)
    ensures n <= |es|
  {
    if |es| == 0 then 0
    else (if IsExpired(es[0].1.expiration, now) then 1 else 0) + CountExpired(es[1..], now)
  }

  /** How many pairs of the sequence hold a live entry. */
  function CountUnexpired<V>(es: seq<(Key, CacheEntry<V>)>, now: Instant): (n: nat)
    ensures n <= |es|
  {
    if |es| == 0 then 0
    else (if IsExpired(es[0].1.expiration, now) then 0 else 1) + CountUnexpired(es[1..], now)
  }

  /** `Cache::expired`: a full scan counting the expired entries, one per resident
      key whose deadline has passed. */
  function Expired<V>(c: Cache<V>, now: Instant): (n: nat)
    ensures n <= Len(c)
    ensures Valid(c) ==> n == |ExpiredKeys(Model(c), now)|
  {
    CountExpiredIsExpiredKeys(c.store, now);
    CountExpired(c.store, now)
  }

  /** `Cache::unexpired`: a full scan counting the live entries, one per resident
      key whose deadline has not passed. */
  function Unexpired<V>(c: Cache<V>, now: Instant): (n: nat)
    ensures n <= Len(c)
    ensures Valid(c) ==> n == |LiveKeys(Model(c), now)|
  {
    CountUnexpiredIsLiveKeys(c.store, now);
    CountUnexpired(c.store, now)
  }

  lemma {:induction false} CountsPartition<V>(es: seq<(Key, CacheEntry<V>)>, now: Instant)
    ensures CountExpired(es, now) + CountUnexpired(es, now) == |es|
  {
    if |es| > 0 {
      CountsPartition(es[1..], now);
    }
  }

  /** At one instant every resident entry is either expired or live:
      `expired() + unexpired() == len()`. */
  lemma ExpiredPlusUnexpired<V>(c: Cache<V>, now: Instant)
    ensures Expired(c, now) + Unexpired(c, now) == Len(c)
  {
    CountsPartition(c.store, now);
  }

  /** The keys of a map whose entries have expired. */
  ghost function ExpiredKeys<V>(m: map<Key, CacheEntry<V>>, now: Instant): set<Key> {
    set k | k in m && IsExpired(m[k].expiration, now)
  }

  lemma {:induction false} CountExpiredIsExpiredKeys<V>(es: seq<(Key, CacheEntry<V>)>, now: Instant)
    ensures Sorted(es) ==> CountExpired(es, now) == |ExpiredKeys(ModelOf(es), now)|
  {
    if |es| > 0 && Sorted(es) {
      SortedSplit(es);
      ModelOfKeys(es[1..]);
      CountExpiredIsExpiredKeys(es[1..], now);
      var m := ModelOf(es[1..]);
      var k0 := es[0].0;
      assert k0 !in m;
      if IsExpired(es[0].1.expiration, now) {
        assert ExpiredKeys(ModelOf(es), now) == ExpiredKeys(m, now) + {k0};
      } else {
        assert ExpiredKeys(ModelOf(es), now) == ExpiredKeys(m, now);
      }
    }
  }

  /** The keys of a map whose entries are live. */
  ghost function LiveKeys<V>(m: map<Key, CacheEntry<V>>, now: Instant): set<Key> {
    set k | k in m && !IsExpired(m[k].expiration, now)
  }

  lemma {:induction false} CountUnexpiredIsLiveKeys<V>(es: seq<(Key, CacheEntry<V>)>, now: Instant)
    ensures Sorted(es) ==> CountUnexpired(es, now) == |LiveKeys(ModelOf(es), now)|
  {
    if |es| > 0 && Sorted(es) {
      SortedSplit(es);
      ModelOfKeys(es[1..]);
      CountUnexpiredIsLiveKeys(es[1..], now);
      var m := ModelOf(es[1..]);
      var k0 := es[0].0;
      assert k0 !in m;
      if IsExpired(es[0].1.expiration, now) {
        assert LiveKeys(ModelOf(es), now) == LiveKeys(m, now);
      } else {
        assert LiveKeys(ModelOf(es), now) == LiveKeys(m, now) + {k0};
      }
    }
  }

  /** The keys `unexpired()` counts are exactly the keys `get` can see. */
  lemma UnexpiredCountsLiveKeys<V>(c: Cache<V>, now: Instant)
    ensures forall k :: k in LiveKeys(Model(c), now) <==> Get(c, k, now).Some?
  {
  }

  /** Right after an insert with a deadline not yet passed, `get` yields the new entry. */
  lemma InsertThenGet<V>(c: Cache<V>, k: Key, v: V, x: CacheExpiration, now: Instant)
    requires !IsExpired(x, now)
    ensures Get(Insert(c, k, v, x, now).0, k, now) == Some(CacheEntry(v, x))
  {
  }

  /** After a remove, `get` finds nothing for that key at any instant. */
  lemma RemoveThenGet<V>(c: Cache<V>, k: Key, now: Instant, later: Instant)
    ensures Get(Remove(c, k, now).0, k, later).None?
  {
  }

  /** A second insert for a key returns the first value exactly when the first entry
      had not expired by the second call. */
  lemma InsertTwice<V>(c: Cache<V>, k: Key, v1: V, x1: CacheExpiration, v2: V,
                       x2: CacheExpiration, now1: Instant, now2: Instant)
    ensures var second := Insert(Insert(c, k, v1, x1, now1).0, k, v2, x2, now2).1;
      && (second.Some? <==> !IsExpired(x1, now2))
      && (second.Some? ==> second.value == v1)
  {
  }

  /** An entry whose deadline has passed is hidden from `get` while it is still
      resident and counted by `len`. */
  lemma ExpiredStaysResident<V>(c: Cache<V>, k: Key, now: Instant)
    requires Valid(c) && k in Model(c) && IsExpired(Model(c)[k].expiration, now)
    ensures Get(c, k, now).None?
    ensures Len(c) == |Model(c)| && Expired(c, now) >= 1
  {
    assert k in ExpiredKeys(Model(c), now);
  }
}

=== FILE: entry.dfy ===
/**
 Cache entries and their expirations (`CacheEntry` and `CacheExpiration`).

 An expiration is an optional absolute deadline; `None` never expires.
 Whether a deadline has passed is decided here, once, against an explicit
 `now`; entries never look at the clock themselves.
 */
module Entry {
  import opened Wrappers
  import opened Time

  /** An optional absolute deadline. */
  datatype CacheExpiration = CacheExpiration(instant: Option<Instant>)

  /** A stored value together with its expiration. */
  datatype CacheEntry<V> = CacheEntry(value: V, expiration: CacheExpiration)

  /** A deadline has passed once it lies strictly before `now`; a deadline
      equal to `now` is still live. Put as elapsed time: an expiration has
      expired exactly when a positive time has passed since its deadline. */
  predicate IsExpired(x: CacheExpiration, now: Instant)
    ensures IsExpired(x, now) <==> x.instant.Some? && SaturatingSince(now, x.instant.value) > 0
  {
    x.instant.Some? && x.instant.value < now
  }

  /** Once expired, an expiration stays expired as the clock moves on. */
  lemma ExpiryIsMonotone(x: CacheExpiration, now: Instant, later: Instant)
    requires now <= later && IsExpired(x, now)
    ensures IsExpired(x, later)
  {
  }

  /** `CacheExpiration::new`: a deadline at exactly the given instant. */
  function New(t: Instant): (x: CacheExpiration)
    ensures x.instant == Some(t)
    ensures forall now: Instant :: IsExpired(x, now) <==> t < now
  {
    CacheExpiration(Some(t))
  }

  /** `CacheExpiration::none`: no deadline at all. */
  function Never(): (x: CacheExpiration)
    ensures forall now: Instant :: !IsExpired(x, now)
  {
    CacheExpiration(None)
  }

  /** `From<Instant>`: the instant itself becomes the deadline. */
  function FromInstant(t: Instant): (x: CacheExpiration)
    ensures x.instant == Some(t)
    ensures forall now: Instant :: IsExpired(x, now) <==> t < now
  {
    New(t)
  }

  /** `CacheExpiration::remaining`: the time left until the deadline, zero once it
      is reached, and `None` without a deadline. */
  function Remaining(x: CacheExpiration, now: Instant): (r: Option<Duration>)
    ensures r.None? <==> x.instant.None?
    ensures r.Some? ==> (r.value == 0 <==> x.instant.value <= now)
    ensures r.Some? && r.value > 0 ==> now + r.value == x.instant.value
  {
    match x.instant
    case None => None
    case Some(t) => Some(SaturatingSince(t, now))
  }

  /** An expired entry reports no time left; a live expiration with `d` left stays
      live through `now + d` and is expired at any later instant. */
  lemma RemainingAgreesWithExpiry(x: CacheExpiration, now: Instant, later: Instant)
    ensures IsExpired(x, now) ==> Remaining(x, now) == Some(0)
    ensures !IsExpired(x, now) && Remaining(x, now).Some? && later <= now + Remaining(x, now).value
            ==> !IsExpired(x, later)
    ensures Remaining(x, now).Some? && later > now + Remaining(x, now).value
            ==> IsExpired(x, later)
  {
  }

  /** `From<Duration>`: a deadline `d` after `now`, fixed at construction; panics
      rather than wrapping when that instant is not representable. */
  function FromDuration(d: Duration, now: Instant): (r: Outcome<CacheExpiration>)
    ensures r.Ok? <==> now + d <= MaxInstant
    ensures r.Fail? ==> r.panic == AddOverflow
    ensures r.Ok? ==> r.value.instant == Some(now + d)
    ensures r.Ok? ==> Remaining(r.value, now) == Some(d) && !IsExpired(r.value, now)
  {
    match CheckedAdd(now, d)
    case None => Fail(AddOverflow)
    case Some(t) => Ok(FromInstant(t))
  }

  /** `From<u64>`: a deadline that many milliseconds after `now`. */
  function FromU64(millis: U64, now: Instant): (r: Outcome<CacheExpiration>)
    ensures r.Ok? <==> now + millis * NanosPerMilli <= MaxInstant
    ensures r.Ok? ==> r.value.instant == Some(now + millis * NanosPerMilli)
    ensures r.Ok? ==> Remaining(r.value, now) == Some(millis * NanosPerMilli)
    ensures r.Ok? ==> !IsExpired(r.value, now)
  {
    FromDuration(Time.FromMillis(millis), now)
  }

  /** `From<Range<u64>>`: a deadline a random number of milliseconds in `[lo, hi)`
      after `now`. The random draw is the parameter `millis`; an empty range panics. */
  function FromRange(lo: U64, hi: U64, millis: U64, now: Instant): (r: Outcome<CacheExpiration>)
    requires lo < hi ==> lo <= millis < hi
    ensures lo >= hi ==> r == Fail(EmptyRange)
    ensures r.Ok? <==> lo < hi && now + millis * NanosPerMilli <= MaxInstant
    ensures r.Ok? ==> r.value.instant == Some(now + millis * NanosPerMilli)
    ensures r.Ok? ==> Remaining(r.value, now) == Some(millis * NanosPerMilli)
    ensures r.Ok? ==> lo * NanosPerMilli <= Remaining(r.value, now).value < hi * NanosPerMilli
  {
    if lo >= hi then Fail(EmptyRange) else FromU64(millis, now)
  }

  /** `value_mut` / `DerefMut` used through a closure: rewrites the value, keeps the
      expiration. */
  function MapValue<V>(e: CacheEntry<V>, f: V -> V): CacheEntry<V> {
    CacheEntry(f(e.value), e.expiration)
  }

  /** Replacing the expiration field, keeping the value. */
  function SetExpiration<V>(e: CacheEntry<V>, x: CacheExpiration): CacheEntry<V> {
    CacheEntry(e.value, x)
  }

  /** Rewriting the value never changes whether the entry is live, nor its time left. */
  lemma MapValueKeepsLiveness<V>(e: CacheEntry<V>, f: V -> V, now: Instant)
    ensures IsExpired(MapValue(e, f).expiration, now) <==> IsExpired(e.expiration, now)
    ensures Remaining(MapValue(e, f).expiration, now) == Remaining(e.expiration, now)
  {
  }
}

=== FILE: purge.dfy ===
/**
 The active-eviction sweep (`Cache::purge`).

 A round draws `n = min(sample, total)` distinct positions, walks the
 key-ordered store once with an iterator that skips ahead between drawn
 positions, collects the keys of expired entries it lands on, and deletes
 them. Rounds repeat while enough of the sample was expired.

 The walk is modelled with its offset arithmetic exactly as written: the
 previous index starts at 0, so when position 0 is not drawn every inspected
 position is one below the drawn one (`Visited`). Either way the iterator is
 never exhausted and only expired entries are deleted.

 The random draw is a parameter; each round runs at the one instant `now`
 and as one atomic step over the store.
 */
module Sweeper {
  import opened Wrappers
  import opened Time
  import opened Entry
  import opened Store
  import opened Caching

  /** `cmp::min`. */
  function Min(a: nat, b: nat): (m: nat)
    ensures m <= a && m <= b && (m == a || m == b)
  {
    if a <= b then a else b
  }

  ghost predicate Increasing(xs: seq<int>) {
    forall i, j :: 0 <= i < j < |xs| ==> xs[i] < xs[j]
  }

  /** `n` distinct positions below `total`, ascending, as a `BTreeSet<usize>`
      filled by rejection sampling iterates them. */
  ghost predicate IsDraw(indices: seq<nat>, n: nat, total: nat) {
    && |indices| == n
    && Increasing(indices)
    && forall i :: 0 <= i < |indices| ==> indices[i] < total
  }

  /** How far the iterator skips before the next drawn index: the gap from the
      previous index less one, where either subtraction underflowing gives 0.
      Skipping that many items past `prev` lands exactly on `idx` whenever `idx`
      lies beyond `prev`; otherwise nothing is skipped. */
  function Offset(idx: nat, prev: nat): (o: nat)
    ensures prev < idx ==> prev + o + 1 == idx
    ensures idx <= prev ==> o == 0
  {
    if idx < prev then 0
    else if idx - prev < 1 then 0
    else idx - prev - 1
  }

  /** The positions the walk as written inspects: the drawn ones when 0 is drawn,
      otherwise each drawn position minus one. */
  ghost function Visited(indices: seq<nat>): seq<nat>
    requires Increasing(indices)
  {
    if |indices| == 0 || indices[0] == 0 then indices
    else seq(|indices|, i requires 0 <= i < |indices| => indices[i] - 1)
  }

  /** The inspected positions are as many as the drawn ones, distinct, ascending and
      inside the store, each at most one below its drawn position. */
  lemma VisitedIsSafe(indices: seq<nat>, n: nat, total: nat)
    requires IsDraw(indices, n, total)
    ensures |Visited(indices)| == n
    ensures Increasing(Visited(indices))
    ensures forall i :: 0 <= i < n ==> Visited(indices)[i] < total
    ensures forall i :: 0 <= i < n ==>
      Visited(indices)[i] <= indices[i] <= Visited(indices)[i] + 1
    ensures n > 0 && indices[0] == 0 ==> Visited(indices) == indices
    ensures n > 0 && indices[0] > 0 ==>
      forall i :: 0 <= i < n ==> Visited(indices)[i] + 1 == indices[i]
  {
  }

  /** Drawing positions 2 and 4 inspects positions 1 and 3; adding position 0 to the
      draw makes the walk inspect exactly the drawn positions. */
  lemma VisitedExamples()
    ensures Visited([2, 4]) == [1, 3]
    ensures Visited([0, 2, 4]) == [0, 2, 4]
  {
  }

  /** The keys of the expired entries at the given positions, in walk order. */
  ghost function SweptKeys<V>(es: seq<(Key, CacheEntry<V>)>, ps: seq<nat>, now: Instant): seq<Key>
    requires forall i :: 0 <= i < |ps| ==> ps[i] < |es|
  {
    if |ps| == 0 then []
    else
      var p := ps[|ps| - 1];
      SweptKeys(es, ps[..|ps| - 1], now)
        + (if IsExpired(es[p].1.expiration, now) then [es[p].0] else [])
  }

  /** What a walk over ascending positions collects: at most one key per position,
      ascending, exactly the expired entries it lands on, and all of them when every
      entry has expired. */
  lemma {:induction false} SweptKeysSound<V>(es: seq<(Key, CacheEntry<V>)>, ps: seq<nat>, now: Instant)
    requires Sorted(es) && Increasing(ps)
    requires forall i :: 0 <= i < |ps| ==> ps[i] < |es|
    ensures |SweptKeys(es, ps, now)| <= |ps|
    ensures Increasing(SweptKeys(es, ps, now))
    ensures forall k :: k in SweptKeys(es, ps, now) ==>
      |ps| > 0 && k <= es[ps[|ps| - 1]].0
    ensures forall k :: k in SweptKeys(es, ps, now) ==>
      k in ModelOf(es) && IsExpired(ModelOf(es)[k].expiration, now)
    ensures forall i :: 0 <= i < |ps| && IsExpired(es[ps[i]].1.expiration, now) ==>
      es[ps[i]].0 in SweptKeys(es, ps, now)
    ensures (forall i :: 0 <= i < |es| ==> IsExpired(es[i].1.expiration, now)) ==>
      |SweptKeys(es, ps, now)| == |ps|
  {
    if |ps| > 0 {
      var init := ps[..|ps| - 1];
      var p := ps[|ps| - 1];
      SweptKeysSound(es, init, now);
      var before := SweptKeys(es, init, now);
      forall k | k in before ensures k < es[p].0 {
        assert |init| > 0 && k <= es[init[|init| - 1]].0;
        assert init[|init| - 1] < p;
      }
      ModelOfAt(es, p);
      var after := SweptKeys(es, ps, now);
      if IsExpired(es[p].1.expiration, now) {
        assert after == before + [es[p].0];
        forall a, b | 0 <= a < b < |after| ensures after[a] < after[b] {
          assert after[a] == before[a];
          assert before[a] in before;
          if b < |before| {
            assert after[b] == before[b];
          }
        }
      } else {
        assert after == before;
      }
      forall i | 0 <= i < |ps| && IsExpired(es[ps[i]].1.expiration, now)
        ensures es[ps[i]].0 in SweptKeys(es, ps, now)
      {
        if i < |ps| - 1 {
          assert ps[i] == init[i];
        }
      }
    }
  }

  /** The iterator's `next()` after `pos` items: the pair at `pos`, or nothing
      once the store is exhausted. */
  function Next<V>(es: seq<(Key, CacheEntry<V>)>, pos: nat): Option<(Key, CacheEntry<V>)> {
    if pos < |es| then Some(es[pos]) else None
  }

  /** The single forward walk of one round (the `for idx in indices` loop). The
      `unwrap` on every `next()` succeeds, and the keys collected are those of the
      expired entries at the `Visited` positions. */
  method Walk<V>(es: seq<(Key, CacheEntry<V>)>, indices: seq<nat>, now: Instant)
    returns (keys: seq<Key>, gone: nat)
    requires IsDraw(indices, |indices|, |es|)
    ensures keys == SweptKeys(es, Visited(indices), now)
    ensures gone == |keys|
  {
    ghost var vs := Visited(indices);
    VisitedIsSafe(indices, |indices|, |es|);
    keys := [];
    gone := 0;
    var prev: nat := 0;  // the previous drawn index
    var pos: nat := 0;   // how many items the iterator has yielded or skipped
    var j := 0;
    while j < |indices|
      invariant 0 <= j <= |indices|
      invariant j == 0 ==> prev == 0 && pos == 0
      invariant j > 0 ==> prev == indices[j - 1] && pos == vs[j - 1] + 1
      invariant keys == SweptKeys(es, vs[..j], now)
      invariant gone == |keys|
    {
      var idx := indices[j];
      pos := pos + Offset(idx, prev);   // iter.skip(offset)
      prev := idx;
      var (key, entry) := Next(es, pos).value;  // iter.next().unwrap()
      pos := pos + 1;
      assert vs[..j + 1][..j] == vs[..j];
      if IsExpired(entry.expiration, now) {
        keys := keys + [key];
        gone := gone + 1;
      }
      j := j + 1;
    }
    assert vs[..j] == vs;
  }

  /** The keys listed, as a set. */
  ghost function KeySet(keys: seq<Key>): set<Key> {
    set k | k in keys
  }

  /** Deleting the collected keys one by one under the write lock. */
  method DeleteAll<V>(c: Cache<V>, keys: seq<Key>) returns (r: Cache<V>)
    requires Valid(c)
    ensures Valid(r)
    ensures Model(r) == Model(c) - KeySet(keys)
    ensures Increasing(keys) && (forall k :: k in keys ==> k in Model(c)) ==>
      Len(r) + |keys| == Len(c)
  {
    r := c;
    var i := 0;
    while i < |keys|
      invariant 0 <= i <= |keys|
      invariant Valid(r)
      invariant Model(r) == Model(c) - KeySet(keys[..i])
      invariant Increasing(keys) && (forall k :: k in keys ==> k in Model(c)) ==>
        Len(r) + i == Len(c)
    {
      DeleteKeepsSorted(r.store, keys[i]);
      if Increasing(keys) && (forall k :: k in keys ==> k in Model(c)) {
        assert keys[i] !in KeySet(keys[..i]);
      }
      assert KeySet(keys[..i + 1]) == KeySet(keys[..i]) + {keys[i]} by {
        assert keys[..i + 1] == keys[..i] + [keys[i]];
      }
      r := Cache(Delete(r.store, keys[i]));
      i := i + 1;
    }
    assert keys[..i] == keys;
  }

  /** Every resident entry has expired. */
  ghost predicate AllExpired<V>(c: Cache<V>, now: Instant) {
    forall k :: k in Model(c) ==> IsExpired(Model(c)[k].expiration, now)
  }

  /** The keys one round collects from store `es` for the drawn positions `indices`. */
  ghost function RoundSweep<V>(es: seq<(Key, CacheEntry<V>)>, indices: seq<nat>, now: Instant): seq<Key>
    requires IsDraw(indices, |indices|, |es|)
  {
    SweptKeys(es, Visited(indices), now)
  }

  /** One round of `purge` over a drawn set of positions: only expired entries go,
      exactly those the walk lands on, at most one per drawn position, and the
      survivors are untouched. */
  method PurgeRound<V>(c: Cache<V>, sample: nat, indices: seq<nat>, now: Instant)
    returns (r: Cache<V>, gone: nat, n: nat)
    requires Valid(c)
    requires IsDraw(indices, Min(sample, Len(c)), Len(c))
    ensures n == Min(sample, Len(c))
    ensures gone == |SweptKeys(c.store, Visited(indices), now)| && gone <= n
    ensures Valid(r) && Len(r) + gone == Len(c)
    ensures Model(r) == Model(c) - KeySet(SweptKeys(c.store, Visited(indices), now))
    ensures forall k :: k in Model(r) ==> k in Model(c) && Model(r)[k] == Model(c)[k]
    ensures forall k :: k in Model(c) && k !in Model(r) ==> IsExpired(Model(c)[k].expiration, now)
    ensures AllExpired(c, now) ==> gone == n
  {
    var total := Len(c);
    n := Min(sample, total);
    var keys;
    keys, gone := Walk(c.store, indices, now);
    VisitedIsSafe(indices, n, total);
    SweptKeysSound(c.store, Visited(indices), now);
    if AllExpired(c, now) {
      forall i | 0 <= i < |c.store| ensures IsExpired(c.store[i].1.expiration, now) {
        ModelOfAt(c.store, i);
        assert c.store[i].0 in Model(c);
      }
    }
    r := DeleteAll(c, keys);
  }

  /** The loop condition as written: another round unless `gone < sample * threshold`. */
  predicate ContinuesAsWritten(gone: nat, sampled: nat, threshold: real) {
    !((gone as real) < (sampled as real) * threshold)
  }

  /** The loop condition this model uses: as written, except that a round which
      removed nothing always ends the loop. */
  predicate KeepSweeping(gone: nat, sampled: nat, threshold: real) {
    gone > 0 && ContinuesAsWritten(gone, sampled, threshold)
  }

  /** With a positive sample and a positive threshold the two conditions agree, so a
      continuing round as written always removed at least one entry. */
  lemma KeepSweepingMatchesSource(gone: nat, sampled: nat, threshold: real)
    requires sampled >= 1 && threshold > 0.0
    ensures KeepSweeping(gone, sampled, threshold) <==> ContinuesAsWritten(gone, sampled, threshold)
  {
  }

  /** A walk over a store with no expired entry collects nothing. */
  lemma NothingSweptWhenAllLive<V>(es: seq<(Key, CacheEntry<V>)>, ps: seq<nat>, now: Instant)
    requires Sorted(es) && Increasing(ps)
    requires forall i :: 0 <= i < |ps| ==> ps[i] < |es|
    requires forall k :: k in ModelOf(es) ==> !IsExpired(ModelOf(es)[k].expiration, now)
    ensures SweptKeys(es, ps, now) == []
  {
    SweptKeysSound(es, ps, now);
  }

  /** As written, a round over a non-empty store with a zero sample, or with a
      threshold of zero or below when nothing has expired, deletes nothing and still
      asks for another round: the store is unchanged, so the loop never ends. */
  lemma AsWrittenLoopStalls<V>(c: Cache<V>, sample: nat, threshold: real, indices: seq<nat>, now: Instant)
    requires Valid(c) && !IsEmpty(c)
    requires IsDraw(indices, Min(sample, Len(c)), Len(c))
    requires sample == 0
      || (threshold <= 0.0 && forall k :: k in Model(c) ==> !IsExpired(Model(c)[k].expiration, now))
    ensures SweptKeys(c.store, Visited(indices), now) == []
    ensures Model(c) - KeySet(SweptKeys(c.store, Visited(indices), now)) == Model(c)
    ensures ContinuesAsWritten(0, Min(sample, Len(c)), threshold)
  {
    StalledRoundSweepsNothing(c.store, sample, threshold, indices, now);
    assert KeySet([]) == {};
    ZeroGoneContinues(Min(sample, Len(c)), threshold);
  }

  /** A round that removed nothing continues, as written, when it sampled nothing or
      the threshold is not positive. */
  lemma ZeroGoneContinues(sampled: nat, threshold: real)
    requires sampled == 0 || threshold <= 0.0
    ensures ContinuesAsWritten(0, sampled, threshold)
  {
  }

  /** The walk of such a round lands on no expired entry. */
  lemma StalledRoundSweepsNothing<V>(es: seq<(Key, CacheEntry<V>)>, sample: nat, threshold: real,
                                     indices: seq<nat>, now: Instant)
    requires Sorted(es)
    requires IsDraw(indices, Min(sample, |es|), |es|)
    requires sample == 0
      || (threshold <= 0.0 && forall k :: k in ModelOf(es) ==> !IsExpired(ModelOf(es)[k].expiration, now))
    ensures SweptKeys(es, Visited(indices), now) == []
  {
    VisitedIsSafe(indices, Min(sample, |es|), |es|);
    if sample == 0 {
      assert Visited(indices) == [];
    } else {
      NothingSweptWhenAllLive(es, Visited(indices), now);
    }
  }

  /** Round `i` of a purge, taking the store from `trace[i]` to `trace[i + 1]`, was
      a real round over the positions `draw` gave for it: the store was non-empty,
      the draw was valid, and exactly the keys the walk collected were deleted. */
  ghost predicate StepDrawn<V>(trace: seq<Cache<V>>, i: nat, sample: nat, now: Instant,
                               draw: (nat, nat, nat) -> seq<nat>)
  {
    && i + 1 < |trace|
    && var before := trace[i];
       var n := Min(sample, Len(before));
       && Valid(before) && !IsEmpty(before)
       && IsDraw(draw(i, n, Len(before)), n, Len(before))
       && Model(trace[i + 1]) == Model(before) - KeySet(RoundSweep(before.store, draw(i, n, Len(before)), now))
  }

  /** How many entries round `i` deleted (0 for a step that is not a drawn round). */
  ghost function StepGone<V>(trace: seq<Cache<V>>, i: nat, sample: nat, now: Instant,
                             draw: (nat, nat, nat) -> seq<nat>): nat
  {
    if StepDrawn(trace, i, sample, now, draw) then
      var before := trace[i];
      |RoundSweep(before.store, draw(i, Min(sample, Len(before)), Len(before)), now)|
    else 0
  }

  /** Round `i` was a real round and, by its expired count, asked for another. */
  ghost predicate StepContinued<V>(trace: seq<Cache<V>>, i: nat, sample: nat, threshold: real,
                                   now: Instant, draw: (nat, nat, nat) -> seq<nat>)
  {
    && StepDrawn(trace, i, sample, now, draw)
    && KeepSweeping(StepGone(trace, i, sample, now, draw), Min(sample, Len(trace[i])), threshold)
  }

  /** Every round before round `n` of the trace was real and asked for another. */
  ghost predicate TraceContinued<V>(trace: seq<Cache<V>>, n: nat, sample: nat, threshold: real,
                                    now: Instant, draw: (nat, nat, nat) -> seq<nat>)
  {
    forall i: nat :: i < n ==> StepContinued(trace, i, sample, threshold, now, draw)
  }

  /** `r` keeps every entry of `c` it holds unchanged, and lacks only entries of `c`
      that had expired at `now`. */
  ghost predicate Retains<V>(c: Cache<V>, r: Cache<V>, now: Instant) {
    && (forall k :: k in Model(r) ==> k in Model(c) && Model(r)[k] == Model(c)[k])
    && (forall k :: k in Model(c) && k !in Model(r) ==> IsExpired(Model(c)[k].expiration, now))
  }

  /** Extending the trace keeps the rounds already recorded. */
  lemma StepContinuedExtends<V>(trace: seq<Cache<V>>, x: Cache<V>, i: nat, sample: nat,
                                threshold: real, now: Instant, draw: (nat, nat, nat) -> seq<nat>)
    requires StepContinued(trace, i, sample, threshold, now, draw)
    ensures StepContinued(trace + [x], i, sample, threshold, now, draw)
  {
    assert (trace + [x])[i] == trace[i] && (trace + [x])[i + 1] == trace[i + 1];
  }

  /** Recording round `i`, from `r` to `next`, at the end of a trace of continued
      rounds. */
  lemma RoundRecorded<V>(trace: seq<Cache<V>>, r: Cache<V>, next: Cache<V>, i: nat,
                         gone: nat, sampled: nat, sample: nat, threshold: real, now: Instant,
                         draw: (nat, nat, nat) -> seq<nat>)
    requires |trace| == i + 1 && trace[i] == r
    requires TraceContinued(trace, i, sample, threshold, now, draw)
    requires Valid(r) && !IsEmpty(r) && sampled == Min(sample, Len(r))
    requires IsDraw(draw(i, sampled, Len(r)), sampled, Len(r))
    requires gone == |RoundSweep(r.store, draw(i, sampled, Len(r)), now)|
    requires Model(next) == Model(r) - KeySet(RoundSweep(r.store, draw(i, sampled, Len(r)), now))
    ensures StepDrawn(trace + [next], i, sample, now, draw)
    ensures gone == StepGone(trace + [next], i, sample, now, draw)
    ensures TraceContinued(trace + [next], i, sample, threshold, now, draw)
    ensures KeepSweeping(gone, sampled, threshold) ==>
      TraceContinued(trace + [next], i + 1, sample, threshold, now, draw)
  {
    var t := trace + [next];
    forall j: nat | j < i
      ensures StepContinued(t, j, sample, threshold, now, draw)
    {
      StepContinuedExtends(trace, next, j, sample, threshold, now, draw);
    }
    assert t[i] == r && t[i + 1] == next;
    assert StepDrawn(t, i, sample, now, draw);
  }

  /** A round whose every sampled entry had expired asks for another when the
      threshold is at most 1. */
  lemma FullHitContinues(gone: nat, sampled: nat, threshold: real)
    requires gone == sampled && sampled >= 1 && threshold <= 1.0
    ensures KeepSweeping(gone, sampled, threshold)
  {
    assert (sampled as real) * threshold <= sampled as real;
  }

  /** One round of the purge loop on a non-empty store `r`, with the trace of the
      rounds so far: the round over `draw`'s positions for round `rounds`, recorded
      as the trace's next step. */
  method TracedRound<V>(c: Cache<V>, r: Cache<V>, trace: seq<Cache<V>>, rounds: nat, sample: nat,
                        threshold: real, now: Instant, draw: (nat, nat, nat) -> seq<nat>)
    returns (next: Cache<V>, gone: nat, sampled: nat)
    requires Valid(r) && !IsEmpty(r) && Retains(c, r, now)
    requires |trace| == rounds + 1 && trace[rounds] == r
    requires TraceContinued(trace, rounds, sample, threshold, now, draw)
    requires forall round: nat, n: nat, total: nat :: n <= total ==>
      IsDraw(draw(round, n, total), n, total)
    ensures Valid(next) && Len(next) + gone == Len(r) && Retains(c, next, now)
    ensures sampled == Min(sample, Len(r)) && gone <= sampled
    ensures StepDrawn(trace + [next], rounds, sample, now, draw)
    ensures gone == StepGone(trace + [next], rounds, sample, now, draw)
    ensures TraceContinued(trace + [next], rounds, sample, threshold, now, draw)
    ensures KeepSweeping(gone, sampled, threshold) ==>
      TraceContinued(trace + [next], rounds + 1, sample, threshold, now, draw)
    ensures AllExpired(c, now) && sample >= 1 && threshold <= 1.0 ==>
      KeepSweeping(gone, sampled, threshold)
  {
    var total := Len(r);
    var indices := draw(rounds, Min(sample, total), total);
    next, gone, sampled := PurgeRound(r, sample, indices, now);
    if AllExpired(c, now) && sample >= 1 && threshold <= 1.0 {
      assert AllExpired(r, now);
      FullHitContinues(gone, sampled, threshold);
    }
    RoundRecorded(trace, r, next, rounds, gone, sampled, sample, threshold, now, draw);
  }

  /** Why a purge stopped: the store emptied, or a round's hit rate fell short. */
  datatype Stop = Drained | Settled(gone: nat, sampled: nat)

  /** `Cache::purge`: rounds until the store is empty or a round's expired count
      falls short of `threshold` times its sample (or is zero). `draw(round, n, total)`
      stands for the random positions of each round. `rounds` is how many rounds ran,
      `trace` the store before each round and at the end, and `last` the store the
      final round started from. Every round is a drawn round (`StepDrawn`), and every
      round but a settling last one asked for another (`TraceContinued`). */
  method Purge<V>(c: Cache<V>, sample: nat, threshold: real, now: Instant,
                  draw: (nat, nat, nat) -> seq<nat>)
    returns (r: Cache<V>, removed: nat, stop: Stop, rounds: nat, last: Cache<V>,
             trace: seq<Cache<V>>)
    requires Valid(c)
    requires forall round: nat, n: nat, total: nat :: n <= total ==>
      IsDraw(draw(round, n, total), n, total)
    ensures |trace| == rounds + 1 && trace[0] == c && trace[rounds] == r
    ensures Valid(r) && Len(r) + removed == Len(c)
    ensures Retains(c, r, now)
    ensures stop.Drained? ==>
      IsEmpty(r) && TraceContinued(trace, rounds, sample, threshold, now, draw)
    ensures stop.Settled? ==>
      && rounds >= 1 && last == trace[rounds - 1] && Retains(c, last, now)
      && TraceContinued(trace, rounds - 1, sample, threshold, now, draw)
      && StepDrawn(trace, rounds - 1, sample, now, draw)
      && stop.sampled == Min(sample, Len(last))
      && stop.gone == StepGone(trace, rounds - 1, sample, now, draw)
      && stop.gone <= stop.sampled
      && !KeepSweeping(stop.gone, stop.sampled, threshold)
    ensures AllExpired(c, now) && sample >= 1 && threshold <= 1.0 ==> IsEmpty(r)
  {
    r := c;
    removed := 0;
    rounds := 0;
    last := c;
    trace := [c];
    while true
      invariant |trace| == rounds + 1 && trace[0] == c && trace[rounds] == r
      invariant TraceContinued(trace, rounds, sample, threshold, now, draw)
      invariant Valid(r) && Len(r) + removed == Len(c) && Retains(c, r, now)
      decreases Len(r)
    {
      if IsEmpty(r) {
        stop := Drained;
        return;
      }
      var next, gone, sampled := TracedRound(c, r, trace, rounds, sample, threshold, now, draw);
      trace := trace + [next];
      last := r;
      r := next;
      removed := removed + gone;
      rounds := rounds + 1;
      if !KeepSweeping(gone, sampled, threshold) {
        stop := Settled(gone, sampled);
        return;
      }
    }
  }
}

=== FILE: scenarios.dfy ===
/**
 The cache's own test cases and usage scenarios, stated as lemmas over
 concrete operations.
 */
module Scenarios {
  import opened Wrappers
  import opened Time
  import opened Entry
  import opened Caching

  /** Three never-expiring inserts: three resident, none expired, three live;
      after `clear`, nothing at all. */
  lemma SizeOperations(now: Instant)
    ensures var c := Insert(Insert(Insert(Empty<int>(), 1, 2, Never(), now).0,
                                   2, 2, Never(), now).0, 3, 3, Never(), now).0;
      && Len(c) == 3 && Expired(c, now) == 0 && Unexpired(c, now) == 3
      && var d := Clear(c);
         Len(d) == 0 && Expired(d, now) == 0 && Unexpired(d, now) == 0
  {
    var c := Insert(Insert(Insert(Empty<int>(), 1, 2, Never(), now).0,
                           2, 2, Never(), now).0, 3, 3, Never(), now).0;
    var m := Model(c);
    assert m == map[1 := CacheEntry(2, Never()), 2 := CacheEntry(2, Never()),
                    3 := CacheEntry(3, Never())];
    assert m.Keys == {1, 2, 3};
    assert ExpiredKeys(m, now) == {};
    ExpiredPlusUnexpired(c, now);
    ExpiredPlusUnexpired(Clear(c), now);
  }

  /** `set_expiration` on a live key is seen by the next `get`; on an absent key the
      conversion is never applied, so even one that would panic leaves the cache as
      it was. */
  lemma SetExpirationOperations(now: Instant)
    ensures var c := Insert(Empty<int>(), 1, 1, Never(), now).0;
      && Caching.SetExpiration(c, 2, (_: Instant) => Fail(AddOverflow), now) == Ok(c)
      && var r := Caching.SetExpiration(c, 1, (t: Instant) => Ok(New(t)), now);
         r.Ok? && Get(r.value, 1, now) == Some(CacheEntry(1, New(now)))
  {
  }

  /** `update` on a live key is seen by the next `get`. */
  lemma UpdateOperations(now: Instant)
    ensures var c := Insert(Empty<int>(), 1, 1, Never(), now).0;
      && Get(c, 1, now) == Some(CacheEntry(1, Never()))
      && Get(Update(c, 1, _ => 5, now), 1, now) == Some(CacheEntry(5, Never()))
  {
  }

  /** A 50 ms deadline is hidden 60 ms later, while a key without a deadline is not. */
  lemma DeadlineHidesEntry(now: Instant)
    requires now + 60 * NanosPerMilli <= MaxInstant
    ensures FromU64(50, now).Ok?
    ensures var c := Insert(Insert(Empty<int>(), 1, 10, FromU64(50, now).value, now).0,
                            2, 20, Never(), now).0;
      && Get(c, 1, now + 60 * NanosPerMilli).None?
      && Get(c, 2, now + 60 * NanosPerMilli).Some?
  {
  }

  /** Inserting over a key returns the old value and leaves the new one readable. */
  lemma InsertOverwrites(now: Instant)
    ensures var first := Insert(Empty<int>(), 1, 2, Never(), now);
      && first.1.None?
      && var second := Insert(first.0, 1, 3, Never(), now);
         second.1 == Some(2) && Get(second.0, 1, now) == Some(CacheEntry(3, Never()))
  {
  }
}

=== FILE: store.dfy ===
/**
 The ordered map behind the cache (`BTreeMap<K, CacheEntry<V>>`), as a
 sequence of key/element pairs kept in strictly increasing key order.
 `ModelOf` is the map the sequence stands for; every operation is specified
 against it. Keys are integers: any totally ordered key type over a finite
 store embeds into them without changing the order.
 */
module Store {
  import opened Wrappers

  type Key = int

  /** Keys strictly increase along the sequence (so they are also distinct). */
  ghost predicate Sorted<E>(es: seq<(Key, E)>) {
    forall i, j :: 0 <= i < j < |es| ==> es[i].0 < es[j].0
  }

  /** The keys that occur in the sequence. */
  ghost function KeysOf<E>(es: seq<(Key, E)>): set<Key> {
    set i | 0 <= i < |es| :: es[i].0
  }

  lemma KeysOfCons<E>(p: (Key, E), es: seq<(Key, E)>)
    ensures KeysOf([p] + es) == KeysOf(es) + {p.0}
  {
    var s := [p] + es;
    assert s[0] == p;
    forall k | k in KeysOf(s) ensures k in KeysOf(es) + {p.0} {
      var i :| 0 <= i < |s| && s[i].0 == k;
      if i > 0 { assert es[i - 1] == s[i]; }
    }
    forall k | k in KeysOf(es) ensures k in KeysOf(s) {
      var i :| 0 <= i < |es| && es[i].0 == k;
      assert s[i + 1] == es[i];
    }
  }

  /** In a sorted sequence the first key lies below every later one. */
  lemma SortedSplit<E>(es: seq<(Key, E)>)
    requires |es| > 0
    ensures es == [es[0]] + es[1..]
    ensures Sorted(es) ==> Sorted(es[1..])
    ensures Sorted(es) ==> forall k :: k in KeysOf(es[1..]) ==> es[0].0 < k
  {
  }

  /** A pair whose key lies below every key of a sorted sequence may lead it. */
  lemma SortedCons<E>(p: (Key, E), es: seq<(Key, E)>)
    ensures Sorted(es) && (forall k :: k in KeysOf(es) ==> p.0 < k) ==> Sorted([p] + es)
  {
    var s := [p] + es;
    forall a, b | Sorted(es) && (forall k :: k in KeysOf(es) ==> p.0 < k) && 0 <= a < b < |s|
      ensures s[a].0 < s[b].0
    {
      assert s[b] == es[b - 1];
      if a > 0 {
        assert s[a] == es[a - 1];
      } else {
        assert es[b - 1].0 in KeysOf(es);
      }
    }
  }

  /** The map a sequence stands for: the earliest pair for a key wins. */
  ghost function ModelOf<E>(es: seq<(Key, E)>): map<Key, E> {
    if |es| == 0 then map[] else ModelOf(es[1..])[es[0].0 := es[0].1]
  }

  /** The map has exactly the keys of the sequence, and one entry per pair when
      the sequence is sorted. */
  lemma {:induction false} ModelOfKeys<E>(es: seq<(Key, E)>)
    ensures ModelOf(es).Keys == KeysOf(es)
    ensures Sorted(es) ==> |ModelOf(es)| == |es|
  {
    if |es| > 0 {
      ModelOfKeys(es[1..]);
      KeysOfCons(es[0], es[1..]);
      SortedSplit(es);
    }
  }

  lemma ModelOfCons<E>(p: (Key, E), es: seq<(Key, E)>)
    ensures ModelOf([p] + es) == ModelOf(es)[p.0 := p.1]
  {
  }

  /** `BTreeMap::get`. */
  function Lookup<E>(es: seq<(Key, E)>, k: Key): (r: Option<E>)
    ensures r.Some? <==> k in ModelOf(es)
    ensures r.Some? ==> r.value == ModelOf(es)[k]
  {
    if |es| == 0 then None
    else if es[0].0 == k then Some(es[0].1)
    else Lookup(es[1..], k)
  }

  /** `BTreeMap::insert`, without its return value: `k` now maps to `e`. */
  function Put<E>(es: seq<(Key, E)>, k: Key, e: E): (r: seq<(Key, E)>)
    ensures ModelOf(r) == ModelOf(es)[k := e]
  {
    if |es| == 0 then
      ModelOfCons((k, e), es);
      [(k, e)]
    else
      assert es == [es[0]] + es[1..];
      ModelOfCons(es[0], es[1..]);
      if k < es[0].0 then
        ModelOfCons((k, e), es);
        [(k, e)] + es
      else if k == es[0].0 then
        ModelOfCons((k, e), es[1..]);
        [(k, e)] + es[1..]
      else
        var rest := Put(es[1..], k, e);
        ModelOfCons(es[0], rest);
        [es[0]] + rest
  }

  /** Insertion keeps the keys in strictly increasing order. */
  lemma {:induction false} PutKeepsSorted<E>(es: seq<(Key, E)>, k: Key, e: E)
    ensures Sorted(es) ==> Sorted(Put(es, k, e))
  {
    if |es| > 0 && Sorted(es) {
      SortedSplit(es);
      if k < es[0].0 {
        SortedCons((k, e), es);
      } else if k == es[0].0 {
        SortedCons((k, e), es[1..]);
      } else {
        PutKeepsSorted(es[1..], k, e);
        SortedCons(es[0], Put(es[1..], k, e));
      }
    }
  }

  /** `BTreeMap::remove`, without its return value: `k` is gone, the rest kept. */
  function Delete<E>(es: seq<(Key, E)>, k: Key): (r: seq<(Key, E)>)
    ensures ModelOf(r) == ModelOf(es) - {k}
  {
    if |es| == 0 then []
    else
      assert es == [es[0]] + es[1..];
      ModelOfCons(es[0], es[1..]);
      var rest := Delete(es[1..], k);
      var m := ModelOf(es[1..]);
      if es[0].0 == k then
        assert m[k := es[0].1] - {k} == m - {k};
        rest
      else
        ModelOfCons(es[0], rest);
        assert m[es[0].0 := es[0].1] - {k} == (m - {k})[es[0].0 := es[0].1];
        [es[0]] + rest
  }

  /** Removal keeps the keys in strictly increasing order and shortens the
      sequence by one exactly when the key was present. */
  lemma {:induction false} DeleteKeepsSorted<E>(es: seq<(Key, E)>, k: Key)
    ensures Sorted(es) ==> Sorted(Delete(es, k))
    ensures Sorted(es) ==> |Delete(es, k)| == if k in ModelOf(es) then |es| - 1 else |es|
  {
    if |es| > 0 && Sorted(es) {
      SortedSplit(es);
      ModelOfKeys(es[1..]);
      DeleteKeepsSorted(es[1..], k);
      if es[0].0 != k {
        SortedCons(es[0], Delete(es[1..], k));
      }
    }
  }

  /** In a sorted sequence the pair at any position is what the map holds for its key. */
  lemma {:induction false} ModelOfAt<E>(es: seq<(Key, E)>, p: nat)
    requires Sorted(es) && p < |es|
    ensures es[p].0 in ModelOf(es) && ModelOf(es)[es[p].0] == es[p].1
  {
    if p > 0 {
      SortedSplit(es);
      ModelOfAt(es[1..], p - 1);
      assert es[1..][p - 1] == es[p];
    }
  }
}

=== FILE: time.dfy ===
/**
 Time as the cache sees it: `std::time::Instant` and `std::time::Duration`
 as bounded nanosecond counts, plus the loud failures (panics) the
 conversions can raise. The clock itself is never read here: every
 operation that calls `Instant::now()` takes `now` as a parameter.
 */
module Time {
  import opened Wrappers

  const NanosPerMilli: nat := 1_000_000
  const NanosPerSecond: nat := 1_000_000_000

  /** The latest representable instant on a Unix target: an `i64` count of
      seconds plus up to 999_999_999 nanoseconds. */
  const MaxInstant: nat := 0x7FFF_FFFF_FFFF_FFFF * NanosPerSecond + (NanosPerSecond - 1)

  /** The longest `Duration`: a `u64` count of seconds plus the nanoseconds. */
  const MaxDuration: nat := 0xFFFF_FFFF_FFFF_FFFF * NanosPerSecond + (NanosPerSecond - 1)

  /** One past the largest `u64`. */
  const U64Bound: nat := 0x1_0000_0000_0000_0000

  /** A monotonic-clock reading, in nanoseconds. */
  type Instant = t: int | 0 <= t <= MaxInstant

  /** A span of time, in nanoseconds. */
  type Duration = d: int | 0 <= d <= MaxDuration

  type U64 = x: int | 0 <= x < U64Bound

  /** Why a conversion panics instead of returning. */
  datatype Panic =
    | AddOverflow   // `checked_add(..).unwrap()` on a deadline past the last instant
    | EmptyRange    // `gen_range(lo..hi)` with `lo >= hi`

  /** The value a conversion returns, or the panic it raises. */
  datatype Outcome<+T> = Ok(value: T) | Fail(panic: Panic)

  /** `Instant::checked_add`: the instant `d` after `t`, unless that is not representable. */
  function CheckedAdd(t: Instant, d: Duration): (r: Option<Instant>)
    ensures r.Some? <==> t + d <= MaxInstant
    ensures r.Some? ==> r.value >= t && r.value - t == d
  {
    if t + d <= MaxInstant then Some(t + d) else None
  }

  /** `Instant::saturating_duration_since`: how long after `earlier` the instant `t` is,
      zero when it is not after it. */
  function SaturatingSince(t: Instant, earlier: Instant): (d: Duration)
    ensures d == 0 <==> t <= earlier
    ensures d > 0 ==> earlier + d == t
  {
    if t <= earlier then 0 else t - earlier
  }

  /** `Duration::from_millis`, which never overflows. */
  function FromMillis(millis: U64): (d: Duration)
    ensures d / NanosPerMilli == millis && d % NanosPerMilli == 0
  {
    millis * NanosPerMilli
  }
}

=== FILE: wrappers.dfy ===
/** Rust's `Option`, the only failure-free wrapper the cache needs. */
module Wrappers {

  /** `None` or `Some(value)`, as `std::option::Option`. */
  datatype Option<+T> = None | Some(value: T)
}
